=== FILE: README.md ===
# Jenkins job manager: reconciliation model

This project is a Dafny model of the plan/apply engine of `jenkins-job-manager`. The engine reconciles a Jenkins server with job and view definitions generated locally. For every job or view name it keeps a change record. The record holds the normalised XML read from the server (the *before* side) and the normalised XML generated locally (the *after* side). From each record the engine decides whether the name needs no change, a `create`, an `update` or a `delete`. It then reports the counts and applies the changes: one remote call per changed item, views first and then jobs.

The model is functional. The server is a pair of maps from name to configuration, one for views and one for jobs. Each change dictionary is an insertion-ordered sequence of records with distinct names. Reading the job listing and applying the plan are folds over sequences.

Modules, one per part of `jenkins_job_manager/cli.py`:

- `Wrappers` (`wrappers.dfy`): `Option`, `Result`, and Python truthiness of an optional string.
- `XmlChanges` (`xml_change.dfy`): the `XmlChange` record, its constructor and setters, and the `changetype` classification.
- `ChangeDicts` (`change_dict.dfy`): `XmlChangeDefaultDict`. Looking up a missing name appends a fresh record.
- `RemoteRead` (`read_jobs.dfy`): the `read_jobs` filter. Sub-jobs of an `OrganizationFolder` are ignored, and so are their descendants, transitively, as long as each is listed after its parent.
- `Gather` (`gather.dfy`): `gather`. Jobs are read from the server first, then the generated jobs and views are stored.
- `Plan` (`plan.dfy`): `detected_changes`, the per-kind counting of `plan_report` and its summary line.
- `Apply` (`apply.dfy`): `apply_plan`. It dispatches one call per changed item, stops at the first failing call, and leaves the server reconciled when every call succeeds.
- `Connect` (`connect_config.dfy`): `JenkinsConnectConfig`. A trailing slash is stripped from the URL, per-URL sections take precedence over `[jenkins]`, and the timeout defaults to 60.

Things the model leaves to its parameters:

- XML normalisation is a parameter `norm: string -> string`. Nothing is assumed about it.
- The server's answer to a configuration request is a parameter `fetch`.
- Whether a remote call succeeds is a parameter `accepts`. It judges a call in the state where it is made.
- The job listing and the generated jobs and views are plain input sequences.

Behaviour of the code worth noting:

- There is no managed/unmanaged distinction. A remote job that is not filtered out and has no local definition is classified as a deletion, provided its fetched configuration normalises to non-empty text (`Gather.GatheredClassification`). If it normalises to empty text, the job is an update whose body is absent.
- `apply_plan` does not catch errors per call. The first failing call ends the apply, and no later call is made (`Apply.ApplyPlan`, `Apply.RunStopsAtFailure`). There is no partial-failure result listing the failed jobs.
- Items are applied in dictionary order: all views, then all jobs. Within each dictionary, creates, updates and deletes are interleaved, not grouped.
- Views are handled too, but `read_jobs` reads only jobs. So a gathered view never has a before side. Every generated view that normalises to non-empty text is classified as a creation on every run (`Gather.Gather`).

Two edge cases are kept exactly as the code has them:

- `changetype` compares the two sides for equality first, and only then tests truthiness. So an absent before side against an empty after side is an `update`.
- The URL loses one trailing slash in `load_from_files` and another in the constructor. A URL ending in `//` therefore loses both slashes (`Connect.LoadedUrlStripsSlashes`).

## Model

| member | source | states |
|---|---|---|
| `XmlChanges.NewChange` | jenkins_job_manager/cli.py:118-123 | a missing name is rejected with the name error; otherwise the record carries the name, both sides are absent, and it classifies as no change |
| `XmlChanges.ChangeType` | jenkins_job_manager/cli.py:142-152 | equal sides (both absent included) give no change, differing sides always give a change; create exactly when the sides differ with a falsy before and a truthy after, delete exactly when they differ with a truthy before and a falsy after, update exactly when they differ with equal truthiness |
| `XmlChanges.SetBefore` | jenkins_job_manager/cli.py:171-173 | the before side becomes the normalised text of the value; name and after side are kept |
| `XmlChanges.SetAfter` | jenkins_job_manager/cli.py:175-177 | the after side becomes the normalised text of the value; name and before side are kept |
| `XmlChanges.NormalizedEqualIsNoChange` | tests/test_xml_change.py:54 | two texts with the same normal form, set as before and after, give no change (`<project></project>` against `<project/>`) |
| `XmlChanges.OnlyAfterIsCreate` | tests/test_xml_change.py:52 | only an after side, normalising to non-empty text, is a create |
| `XmlChanges.OnlyBeforeIsDelete` | tests/test_xml_change.py:53 | only a before side, normalising to non-empty text, is a delete |
| `XmlChanges.DifferentBothIsUpdate` | tests/test_xml_change.py:55-56 | two non-empty sides with different normal forms are an update |
| `XmlChanges.SwapSidesInvertsChange` | jenkins_job_manager/cli.py:146-151 | exchanging before and after turns create into delete and back, and keeps update and no change |
| `ChangeDicts.Find` | jenkins_job_manager/cli.py:180-184 | the position found holds the key; no position is found exactly when the key is absent |
| `ChangeDicts.Lookup` | jenkins_job_manager/cli.py:180-184 | the returned entry is named by the key; a present key leaves the dictionary unchanged; a missing key appends exactly one fresh entry with both sides absent; unique keys stay unique |
| `ChangeDicts.Assign` | jenkins_job_manager/cli.py:240 | assigning one side of `d[key]` changes only the entry for `key` (appended if missing) and keeps every other entry, every name and the order; the key is present afterwards |
| `RemoteRead.ReadJobs` | jenkins_job_manager/cli.py:221-240 | the ignored-URL set is the one the listing registers; every name whose job is read gets its normalised fetched configuration as its before side; existing entries keep order and after side; new names are appended with no after side; entries of names not read are untouched |
| `RemoteRead.RegisteredByGrows` | jenkins_job_manager/cli.py:226-238 | the ignored-URL set only grows along the listing |
| `RemoteRead.RegisteredHasSource` | jenkins_job_manager/cli.py:232-237 | every ignored URL was listed as a sub-job by an earlier organisation folder or ignored job |
| `RemoteRead.SkippedIffChildOfRegistering` | jenkins_job_manager/cli.py:232-238 | a listed job is skipped exactly when it is not an organisation folder and an earlier organisation folder or skipped job lists it as a sub-job |
| `RemoteRead.DescendantsOfFolderAreSkipped` | jenkins_job_manager/cli.py:234-237 | along any chain of sub-jobs starting at an organisation folder, each listed after its parent, every member registers its sub-jobs, and every member below the head is skipped unless it is itself an organisation folder |
| `RemoteRead.ReadNamesExact` | jenkins_job_manager/cli.py:221-240 | a name's configuration is fetched exactly when some entry of the listing with that name is read |
| `RemoteRead.SkippedNameNotRead` | jenkins_job_manager/cli.py:234-238 | when full names are unique, a skipped entry's name is never fetched |
| `Gather.SkippedDescendantHasNoBefore` | jenkins_job_manager/cli.py:226-240 | when full names are unique, the gathered entry of a job below an organisation folder, along a chain each listed after its parent, that is not itself a folder has no before side |
| `Gather.LoadLocal` | jenkins_job_manager/cli.py:296-303 | each generated name's entry gets the last generated XML for it, normalised, as its after side; existing entries keep order and before side; new names are appended with no before side; other entries are untouched |
| `Gather.LoadAfterRead` | jenkins_job_manager/cli.py:311-315 | storing generated jobs after the read ones puts each name's fetched and generated sides in place, and every name found on the server comes before every name known only locally |
| `Gather.Gather` | jenkins_job_manager/cli.py:311-315 | the job dictionary has the gathered shape; every view has no before side, so no view is ever deleted, and a view whose after side is not empty is a create |
| `Gather.GatheredClassification` | jenkins_job_manager/cli.py:142-151 | a gathered job only on the server is a delete, one only local is a create, and one on both sides is unchanged exactly when both normalise equally |
| `Plan.Changed` | jenkins_job_manager/cli.py:341-346 | every item kept has a change and no more items than the input |
| `Plan.ChangedMembers` | jenkins_job_manager/cli.py:341-346 | an item gets a diff block exactly when it is in the dictionary and has a change |
| `Plan.ChangedAreCounted` | jenkins_job_manager/cli.py:337-346 | the number of diff blocks equals the sum of the three per-kind counts |
| `Plan.ZeroTallyIffUnchanged` | jenkins_job_manager/cli.py:327-332 | the counts are all zero exactly when no item has a change |
| `Plan.TallySnoc` | jenkins_job_manager/cli.py:342-345 | one more item adds one to the count of its kind if it has a change, and nothing otherwise |
| `Plan.DetectedChanges` | jenkins_job_manager/cli.py:305-309 | true exactly when some job or some view has a change |
| `Plan.SummaryOf` | jenkins_job_manager/cli.py:327-332 | "No changes." exactly when the total is zero, otherwise the totals line with the three counts |
| `Plan.IterChanges` | jenkins_job_manager/cli.py:339-346 | yields the changed items in order, skipping unchanged ones, and adds each kind's number of items to the running counts |
| `Plan.PlanReport` | jenkins_job_manager/cli.py:317-356 | the views' blocks come before the jobs' blocks, every block is a changed item, the counts are the per-kind counts over views and jobs, and the summary is "No changes." exactly when nothing changes |
| `Apply.Perform` | jenkins_job_manager/cli.py:369-377 | a call fails exactly when the server refuses it or it is a create or reconfigure without a body; a successful call writes its own slot and keeps every other slot of both kinds |
| `Apply.Effect` | jenkins_job_manager/cli.py:367-378 | a create or reconfigure stores its body under its name and a delete removes the name; every other slot of both kinds is kept; a call with no body cannot be made |
| `Apply.CallOf` | jenkins_job_manager/cli.py:363-378 | a create becomes a create call and an update a reconfigure call, each carrying the after side; a delete becomes a delete call for the item's own name and kind |
| `Apply.CallsFor` | jenkins_job_manager/cli.py:362-378 | one call per changed item, all of the dictionary's kind |
| `Apply.Run` | jenkins_job_manager/cli.py:358-401 | at most all calls succeed, and when the run stops early, the call at the stopping point is refused in the state the earlier calls left |
| `Apply.RunIsAcceptedPrefix` | jenkins_job_manager/cli.py:358-401 | a run is the longest accepted prefix: running only the calls that succeeded gives the same result, and all of them succeed |
| `Apply.RunStopsAtFailure` | jenkins_job_manager/cli.py:358-401 | once a call has failed, no later call is made and the server state stays where the failure left it |
| `Apply.CallsForReconcile` | jenkins_job_manager/cli.py:362-380 | if every call of one dictionary succeeds, each created or updated name holds its after body, each deleted name is gone, and unchanged names, names outside the dictionary and the other kind's slots are untouched |
| `Apply.ApplyReconciles` | jenkins_job_manager/cli.py:358-401 | if every planned call succeeds, the server's view slots and job slots are both reconciled with their dictionaries |
| `Apply.PlannedCallsShape` | jenkins_job_manager/cli.py:361-382 | no view call comes after a job call, and the number of calls equals the total of the plan report's counts |
| `Apply.ApplyItems` | jenkins_job_manager/cli.py:362-380 | one loop of the apply: succeeds exactly when all of the dictionary's calls succeed; then the counts grow by the dictionary's per-kind counts; otherwise it reports the first failing call |
| `Apply.ApplyPlan` | jenkins_job_manager/cli.py:358-401 | succeeds exactly when every planned call succeeds, returning the same counts as the plan report; on failure it reports the first failing call, which the server refused in the state the earlier calls left; on success the server is reconciled |
| `Connect.StripSlash` | jenkins_job_manager/cli.py:44-45 | a URL ending in `/` loses exactly that one character; any other URL is kept |
| `Connect.ParseInt` | jenkins_job_manager/cli.py:48 | a text parses exactly when it is an optional sign followed by one or more decimal digits; the value is the digits' value, negated after a minus sign |
| `Connect.TimeoutOf` | jenkins_job_manager/cli.py:48 | an absent or empty timeout gives 60; text that is not an integer is an error; otherwise the parsed number |
| `Connect.TimeoutOfDecimal` | jenkins_job_manager/cli.py:48 | a timeout written in decimal, with or without a minus sign, is that number of seconds |
| `Connect.ParseShowNat` | jenkins_job_manager/cli.py:48 | parsing the decimal digits of a number, optionally signed, gives back the number |
| `Connect.NewConnectConfig` | jenkins_job_manager/cli.py:43-48 | construction succeeds exactly when the timeout converts; the credentials are kept; a present URL stays present and loses only a trailing slash |
| `Connect.SectionByUrl` | jenkins_job_manager/cli.py:88-89 | a non-empty value in the URL's own section wins; otherwise the `[jenkins]` value is used, or nothing when `[jenkins]` lacks the option |
| `Connect.WithOverrides` | jenkins_job_manager/cli.py:79-80 | the overrides replace or add options of `[jenkins]`, the section's other options stay, and no other section changes |
| `Connect.LoadFromFiles` | jenkins_job_manager/cli.py:67-98 | the URL comes from `[jenkins]` after the overrides are merged; the credentials and the timeout are looked up by the stripped URL, and the timeout is the converted value; loading fails exactly when the timeout does not convert |
| `Connect.LoadedUrlStripsSlashes` | jenkins_job_manager/cli.py:82-96 | a `[jenkins]` URL ending in one or two slashes is loaded without them |
| `Connect.OverrideUrlWins` | jenkins_job_manager/cli.py:78-82 | a URL given as an override is the URL read, whatever the files say |

## Left out

- XML normalisation (`xml_normalize`: minidom parsing, stripping blank text, pretty-printing) is the uninterpreted parameter `norm`. This is why the test cases hold only for normalisers that identify the texts the tests identify.
- `difflines` (difflib's unified diff) is not modelled. A diff block is represented by the change record it would be rendered from.
- The Jinja template text of `plan_report` is not modelled. Only the order of blocks, the counting and the choice of summary line are modelled.
- `generate_jjb_xml` is not modelled: the Jenkins Job Builder YAML parsing, the raw-XML job type and the XML generation. Its output is the input sequence of generated names and XML. Only the storing of that output into the dictionaries is modelled.
- The `python-jenkins` client is abstracted. `get_all_jobs` becomes the listing. `get_job_config` becomes `fetch`, which cannot fail. The success of each mutating call is decided by `accepts`. A create or reconfigure call with an absent body is treated as a failing call.
- `Apply.Perform`: a refused call is modelled as leaving the server unchanged. A call the server applied before the client raised is out of scope, for instance a request that timed out after taking effect. So the aborted state of `Apply.ApplyPlan`, which is where the earlier calls left the server, holds under this assumption only.
- Normalisation cannot fail in the model: `norm` is total. `xml_normalize` raises on malformed XML, and the setters pass that error out of `read_jobs` and `generate_jjb_xml`, which aborts `gather`. That failure path is out of scope.
- `RemoteRead.DescendantsOfFolderAreSkipped`: the listing order is an input. The filter is a single forward pass, so a sub-job listed before its organisation folder is read, not skipped. The lemma's chains therefore list each member after its parent. `get_all_jobs` of python-jenkins walks folders top-down and lists a folder before its children, so this premise holds for the listings the tool receives; python-jenkins itself is not part of this model.
- `Apply.Effect`: a delete removes only its own name. On Jenkins, deleting a folder also removes its descendants, including the sub-jobs `read_jobs` keeps out of the dictionary. Cascading deletes are out of scope, and so is a later delete of a child that is already gone. The "names outside the dictionary are untouched" part of `Apply.CallsForReconcile` and `Apply.ApplyReconciles` holds for this flat model only.
- `RemoteRead.ReadJobs`: a failing `get_job_config` request is not modelled, because `fetch` is total.
- `load_plugins_list` is not modelled: its result is used only by the generator.
- The `RuntimeError` branch of `apply_plan` is not modelled. The change kind has exactly three values, so that branch cannot be reached.
- Reading the configuration files is not modelled. The parser's merged contents are an input. Also left out: configparser's `DEFAULT`-section inheritance and option-name lower-casing, `update_user_conf_auth`, `password_obscured` (md5), `__str__` and `__repr__`.
- `Connect.ParseInt` and `Connect.TimeoutOf`: only an optional sign followed by ASCII digits is read as an integer. Python's `int` also accepts surrounding whitespace, underscores between digits and non-ASCII digits; those are read as errors here, because the model has no Unicode character classes.
- The click commands, prompts, pager, colouring, `check_authentication` and logging are not modelled: they are user-interface and network glue.

=== FILE: apply.dfy ===
/**
 * Applying a plan against the server: views first, then jobs, one remote
 * call per changed item (create, reconfigure or delete) and none for an
 * unchanged one. A failing call is not caught, so the first failure ends
 * the whole apply with the calls before it already done.
 */
module Apply {
  import opened Wrappers
  import opened XmlChanges
  import opened ChangeDicts
  import opened Plan

  datatype ItemKind = ViewItem | JobItem

  /** The client calls `create_*`, `reconfig_*` and `delete_*` for views and jobs. */
  datatype Call =
    | CreateCall(item: ItemKind, name: string, body: Option<string>)
    | ReconfigCall(item: ItemKind, name: string, body: Option<string>)
    | DeleteCall(item: ItemKind, name: string)

  /** The server's configurations, by name, for views and for jobs. */
  datatype Remote = Remote(views: map<string, string>, jobs: map<string, string>)

  /**
   * The server's verdict on a call made in a given state: true when it
   * succeeds. Which calls fail (a name that already exists, a missing job,
   * a network error) is decided outside the model.
   */
  type Server = (Remote, Call) -> bool

  function Items(remote: Remote, item: ItemKind): map<string, string>
  {
    match item
    case ViewItem => remote.views
    case JobItem => remote.jobs
  }

  function WithItems(remote: Remote, item: ItemKind, m: map<string, string>): Remote
  {
    match item
    case ViewItem => remote.(views := m)
    case JobItem => remote.(jobs := m)
  }

  /** What the server holds under a name: its configuration, or nothing. */
  function Slot(remote: Remote, item: ItemKind, name: string): Option<string>
  {
    var m := Items(remote, item);
    if name in m then Some(m[name]) else None
  }

  /** What a successful call leaves under its own name. */
  function Written(call: Call): Option<string>
  {
    match call
    case CreateCall(_, _, body) => body
    case ReconfigCall(_, _, body) => body
    case DeleteCall(_, _) => None
  }

  /**
   * The state change of a call. A create or reconfigure call whose body is
   * absent cannot be sent and fails; otherwise the call's own name gets the
   * written configuration (or loses it, for a delete) and every other slot
   * of either kind stays as it was.
   */
  function Effect(remote: Remote, call: Call): (r: Option<Remote>)
    ensures r.None? <==> !call.DeleteCall? && call.body.None?
    ensures r.Some? ==> Slot(r.value, call.item, call.name) == Written(call)
    ensures r.Some? ==> forall n :: n != call.name ==> Slot(r.value, call.item, n) == Slot(remote, call.item, n)
    ensures r.Some? ==> forall item :: item != call.item ==> Items(r.value, item) == Items(remote, item)
  {
    var m := Items(remote, call.item);
    match call
    case CreateCall(item, name, body) =>
      if body.None? then None else Some(WithItems(remote, item, m[name := body.value]))
    case ReconfigCall(item, name, body) =>
      if body.None? then None else Some(WithItems(remote, item, m[name := body.value]))
    case DeleteCall(item, name) =>
      Some(WithItems(remote, item, m - {name}))
  }

  /** One call against the server: the new state, or `None` when the call fails. */
  function Perform(remote: Remote, call: Call, accepts: Server): (r: Option<Remote>)
    ensures r.None? <==> !accepts(remote, call) || (!call.DeleteCall? && call.body.None?)
    ensures r.Some? ==> Slot(r.value, call.item, call.name) == Written(call)
    ensures r.Some? ==> forall n :: n != call.name ==> Slot(r.value, call.item, n) == Slot(remote, call.item, n)
    ensures r.Some? ==> forall item :: item != call.item ==> Items(r.value, item) == Items(remote, item)
  {
    if accepts(remote, call) then Effect(remote, call) else None
  }

  /** The call that applies one changed item. */
  function CallOf(item: ItemKind, c: XmlChange): (r: Call)
    requires ChangeType(c).Some?
    ensures r.item == item && r.name == c.name
    ensures ChangeType(c) == Some(Create) <==> r.CreateCall?
    ensures ChangeType(c) == Some(Update) <==> r.ReconfigCall?
    ensures !r.DeleteCall? ==> r.body == c.after
  {
    match ChangeType(c).value
    case Create => CreateCall(item, c.name, c.after)
    case Update => ReconfigCall(item, c.name, c.after)
    case Delete => DeleteCall(item, c.name)
  }

  /** The calls for the items of `s`: one per changed item, in order. */
  function CallsFor(item: ItemKind, s: seq<XmlChange>): (r: seq<Call>)
    ensures |r| == |Changed(s)|
    ensures forall t :: 0 <= t < |r| ==> r[t].item == item
  {
    var cs := Changed(s);
    seq(|cs|, t requires 0 <= t < |cs| => CallOf(item, cs[t]))
  }

  /** The calls of the whole plan: the views' calls, then the jobs'. */
  function PlannedCalls(views: seq<XmlChange>, jobs: seq<XmlChange>): seq<Call>
  {
    CallsFor(ViewItem, views) + CallsFor(JobItem, jobs)
  }

  /** How far a run of calls got: `done` calls succeeded, leaving `remote`. */
  datatype RunResult = RunResult(done: nat, remote: Remote)

  /**
   * The calls made one after the other, stopping at the first failure:
   * `done == |calls|` exactly when every call succeeded.
   */
  function Run(remote: Remote, calls: seq<Call>, accepts: Server): (r: RunResult)
    ensures r.done <= |calls|
    ensures r.done < |calls| ==> Perform(r.remote, calls[r.done], accepts).None?
  {
    if |calls| == 0 then RunResult(0, remote)
    else
      var prev := Run(remote, calls[..|calls| - 1], accepts);
      if prev.done < |calls| - 1 then prev
      else
        match Perform(prev.remote, calls[|calls| - 1], accepts)
        case None => prev
        case Some(next) => RunResult(|calls|, next)
  }

  /**
   * A run is the longest prefix of the calls the server accepts one after
   * the other: running just the first `done` calls gives the same result.
   */
  lemma {:induction false} RunIsAcceptedPrefix(remote: Remote, calls: seq<Call>, accepts: Server)
    ensures var r := Run(remote, calls, accepts);
            Run(remote, calls[..r.done], accepts) == r && Succeeds(remote, calls[..r.done], accepts)
  {
    if |calls| > 0 {
      var init := calls[..|calls| - 1];
      var prev := Run(remote, init, accepts);
      RunIsAcceptedPrefix(remote, init, accepts);
      assert init[..prev.done] == calls[..prev.done];
      assert calls[..|calls|] == calls;
    }
  }

  /** The outcome of `apply_plan`: the per-kind counts, or the call that raised. */
  datatype ApplyResult =
    | Applied(counts: Counts, remote: Remote)
    | Aborted(failed: Call, remote: Remote)

  /** Every call of `calls` succeeds. */
  predicate Succeeds(remote: Remote, calls: seq<Call>, accepts: Server)
  {
    Run(remote, calls, accepts).done == |calls|
  }

  lemma {:induction false} ChangedAppend(a: seq<XmlChange>, b: seq<XmlChange>)
    ensures Changed(a + b) == Changed(a) + Changed(b)
  {
    if |b| == 0 {
      assert a + b == a;
    } else {
      var b' := b[..|b| - 1];
      ChangedAppend(a, b');
      assert (a + b)[..|a + b| - 1] == a + b';
      assert (a + b)[|a + b| - 1] == b[|b| - 1];
    }
  }

  lemma CallsForAppend(item: ItemKind, a: seq<XmlChange>, b: seq<XmlChange>)
    ensures CallsFor(item, a + b) == CallsFor(item, a) + CallsFor(item, b)
  {
    ChangedAppend(a, b);
  }

  /** The calls of a non-empty sequence: those of all but the last item, then the last's, if any. */
  lemma CallsForSnoc(item: ItemKind, s: seq<XmlChange>)
    requires |s| > 0
    ensures ChangeType(s[|s| - 1]).None? ==> CallsFor(item, s) == CallsFor(item, s[..|s| - 1])
    ensures ChangeType(s[|s| - 1]).Some? ==>
              CallsFor(item, s) == CallsFor(item, s[..|s| - 1]) + [CallOf(item, s[|s| - 1])]
  {
    assert s == s[..|s| - 1] + [s[|s| - 1]];
    CallsForAppend(item, s[..|s| - 1], [s[|s| - 1]]);
    assert [s[|s| - 1]][..0] == [];
  }

  /** Once a run has stopped at a failure, further calls are never made. */
  lemma {:induction false} RunStopsAtFailure(remote: Remote, a: seq<Call>, b: seq<Call>, accepts: Server)
    requires Run(remote, a, accepts).done < |a|
    ensures Run(remote, a + b, accepts) == Run(remote, a, accepts)
  {
    if |b| == 0 {
      assert a + b == a;
    } else {
      var b' := b[..|b| - 1];
      RunStopsAtFailure(remote, a, b', accepts);
      assert (a + b)[..|a + b| - 1] == a + b';
    }
  }

  /**
   * A run of `a + b` that succeeds throughout is a successful run of `a`
   * followed by a successful run of `b` from the state `a` left.
   */
  lemma {:induction false} RunAppend(remote: Remote, a: seq<Call>, b: seq<Call>, accepts: Server)
    requires Succeeds(remote, a + b, accepts)
    ensures Succeeds(remote, a, accepts)
    ensures Run(Run(remote, a, accepts).remote, b, accepts) == RunResult(|b|, Run(remote, a + b, accepts).remote)
  {
    if |b| == 0 {
      assert a + b == a;
    } else {
      var b' := b[..|b| - 1];
      var c := a + b;
      assert c[..|c| - 1] == a + b';
      assert c[|c| - 1] == b[|b| - 1];
      RunAppend(remote, a, b', accepts);
    }
  }

  /**
   * How the server's slot for one item relates before and after a
   * successful apply: untouched when the item is unchanged, holding the
   * after body when it is created or updated, empty when it is deleted.
   */
  ghost predicate ItemReconciled(remote: Remote, final: Remote, item: ItemKind, c: XmlChange)
  {
    match ChangeType(c)
    case None => Slot(final, item, c.name) == Slot(remote, item, c.name)
    case Some(Delete) => Slot(final, item, c.name).None?
    case Some(_) => c.after.Some? && Slot(final, item, c.name) == c.after
  }

  /** Every item of `s` is reconciled, and every name outside `s` is untouched. */
  ghost predicate Reconciled(remote: Remote, final: Remote, item: ItemKind, s: seq<XmlChange>)
  {
    && (forall i :: 0 <= i < |s| ==> ItemReconciled(remote, final, item, s[i]))
    && (forall n :: !HasKey(s, n) ==> Slot(final, item, n) == Slot(remote, item, n))
  }

  /** An unchanged item appended to a reconciled dictionary leaves it reconciled. */
  lemma ReconciledSkip(remote: Remote, final: Remote, item: ItemKind, s: seq<XmlChange>)
    requires |s| > 0 && Valid(s)
    requires ChangeType(s[|s| - 1]).None?
    requires Reconciled(remote, final, item, s[..|s| - 1])
    ensures Reconciled(remote, final, item, s)
  {
    var init, last := s[..|s| - 1], s[|s| - 1];
    assert forall i :: 0 <= i < |init| ==> init[i] == s[i];
    assert !HasKey(init, last.name);
  }

  /** A changed item whose call succeeds, appended to a reconciled dictionary, leaves it reconciled. */
  lemma ReconciledStep(remote: Remote, mid: Remote, final: Remote, item: ItemKind, s: seq<XmlChange>)
    requires |s| > 0 && Valid(s)
    requires ChangeType(s[|s| - 1]).Some?
    requires Reconciled(remote, mid, item, s[..|s| - 1])
    requires Effect(mid, CallOf(item, s[|s| - 1])) == Some(final)
    ensures Reconciled(remote, final, item, s)
  {
    var init, last := s[..|s| - 1], s[|s| - 1];
    assert forall i :: 0 <= i < |init| ==> init[i] == s[i] && init[i].name != last.name;
    assert ItemReconciled(remote, final, item, last);
  }

  /**
   * The calls for one dictionary, when they all succeed: each created or
   * updated name holds its after body, each deleted name is gone, every
   * other name and the other kind's configurations are as before.
   */
  lemma {:induction false} CallsForReconcile(remote: Remote, item: ItemKind, s: seq<XmlChange>, accepts: Server)
    requires Valid(s)
    requires Succeeds(remote, CallsFor(item, s), accepts)
    ensures Reconciled(remote, Run(remote, CallsFor(item, s), accepts).remote, item, s)
    ensures forall other :: other != item ==>
              Items(Run(remote, CallsFor(item, s), accepts).remote, other) == Items(remote, other)
  {
    var final := Run(remote, CallsFor(item, s), accepts).remote;
    if |s| == 0 {
      assert CallsFor(item, s) == [];
    } else {
      var init := s[..|s| - 1];
      var last := s[|s| - 1];
      assert Valid(init) by {
        assert forall i :: 0 <= i < |init| ==> init[i] == s[i];
      }
      CallsForSnoc(item, s);
      var a := CallsFor(item, init);
      var mid := Run(remote, a, accepts).remote;
      if ChangeType(last).None? {
        CallsForReconcile(remote, item, init, accepts);
        ReconciledSkip(remote, final, item, s);
      } else {
        var call := CallOf(item, last);
        assert (a + [call])[..|a|] == a;
        assert Succeeds(remote, a, accepts);
        assert Perform(mid, call, accepts) == Some(final);
        CallsForReconcile(remote, item, init, accepts);
        ReconciledStep(remote, mid, final, item, s);
      }
    }
  }

  /**
   * After a fully successful apply the server is reconciled with both
   * dictionaries: the views' slots follow the views' changes and the jobs'
   * slots the jobs' changes.
   */
  lemma ApplyReconciles(views: seq<XmlChange>, jobs: seq<XmlChange>, remote: Remote, accepts: Server)
    requires Valid(views) && Valid(jobs)
    requires Succeeds(remote, PlannedCalls(views, jobs), accepts)
    ensures Reconciled(remote, Run(remote, PlannedCalls(views, jobs), accepts).remote, ViewItem, views)
    ensures Reconciled(remote, Run(remote, PlannedCalls(views, jobs), accepts).remote, JobItem, jobs)
  {
    var vc, jc := CallsFor(ViewItem, views), CallsFor(JobItem, jobs);
    var final := Run(remote, vc + jc, accepts).remote;
    RunAppend(remote, vc, jc, accepts);
    var mid := Run(remote, vc, accepts).remote;
    CallsForReconcile(remote, ViewItem, views, accepts);
    CallsForReconcile(mid, JobItem, jobs, accepts);
    assert Items(final, ViewItem) == Items(mid, ViewItem);
    assert Items(mid, JobItem) == Items(remote, JobItem);
    assert forall n :: Slot(final, ViewItem, n) == Slot(mid, ViewItem, n);
    assert forall n :: Slot(mid, JobItem, n) == Slot(remote, JobItem, n);
  }

  /** All view calls come before all job calls, and there is one call per changed item. */
  lemma PlannedCallsShape(views: seq<XmlChange>, jobs: seq<XmlChange>)
    ensures var calls := PlannedCalls(views, jobs);
            forall i, j :: 0 <= i < j < |calls| && calls[i].item == JobItem ==> calls[j].item == JobItem
    ensures |PlannedCalls(views, jobs)| == Total(PlanCounts(views, jobs))
  {
    var vc, jc := CallsFor(ViewItem, views), CallsFor(JobItem, jobs);
    var calls := vc + jc;
    forall i, j | 0 <= i < j < |calls| && calls[i].item == JobItem
      ensures calls[j].item == JobItem
    {
      assert calls[j] == jc[j - |vc|];
    }
    ChangedAreCounted(views);
    ChangedAreCounted(jobs);
  }

  /** A failing call ends the run: nothing after it is attempted. */
  lemma AbortAt(remote: Remote, done: seq<Call>, call: Call, rest: seq<Call>, cur: Remote, accepts: Server)
    requires Run(remote, done, accepts) == RunResult(|done|, cur)
    requires Perform(cur, call, accepts).None?
    ensures Run(remote, done + [call] + rest, accepts) == RunResult(|done|, cur)
    ensures (done + [call] + rest)[|done|] == call
  {
    assert (done + [call])[..|done|] == done;
    RunStopsAtFailure(remote, done + [call], rest, accepts);
  }

  /** A succeeding call extends a run that has succeeded so far. */
  lemma RunExtend(remote: Remote, done: seq<Call>, call: Call, cur: Remote, next: Remote, accepts: Server)
    requires Run(remote, done, accepts) == RunResult(|done|, cur)
    requires Perform(cur, call, accepts) == Some(next)
    ensures Run(remote, done + [call], accepts) == RunResult(|done + [call]|, next)
  {
    assert (done + [call])[..|done|] == done;
  }

  /** A run of `a + b` is a run of `a` and then, if that succeeded, a run of `b`. */
  lemma {:induction false} RunConcat(remote: Remote, a: seq<Call>, b: seq<Call>, accepts: Server)
    requires Succeeds(remote, a, accepts)
    ensures var rest := Run(Run(remote, a, accepts).remote, b, accepts);
            Run(remote, a + b, accepts) == RunResult(|a| + rest.done, rest.remote)
  {
    if |b| == 0 {
      assert a + b == a;
    } else {
      var b' := b[..|b| - 1];
      RunConcat(remote, a, b', accepts);
      assert (a + b)[..|a + b| - 1] == a + b';
      assert (a + b)[|a + b| - 1] == b[|b| - 1];
    }
  }

  /** The calls of a dictionary split around a changed item `i`. */
  lemma CallsForAround(item: ItemKind, s: seq<XmlChange>, i: nat)
    requires i < |s| && ChangeType(s[i]).Some?
    ensures CallsFor(item, s) == CallsFor(item, s[..i]) + [CallOf(item, s[i])] + CallsFor(item, s[i + 1..])
  {
    assert s[..i + 1][..i] == s[..i];
    CallsForSnoc(item, s[..i + 1]);
    assert s == s[..i + 1] + s[i + 1..];
    CallsForAppend(item, s[..i + 1], s[i + 1..]);
  }

  /** A call failing at item `i` is the first failure of the run over the whole dictionary. */
  lemma AbortInLoop(item: ItemKind, s: seq<XmlChange>, i: nat, remote: Remote, done: seq<Call>, cur: Remote, accepts: Server)
    requires i < |s| && ChangeType(s[i]).Some?
    requires done == CallsFor(item, s[..i])
    requires Run(remote, done, accepts) == RunResult(|done|, cur)
    requires Perform(cur, CallOf(item, s[i]), accepts).None?
    ensures Run(remote, CallsFor(item, s), accepts) == RunResult(|done|, cur)
    ensures |done| < |CallsFor(item, s)| && CallsFor(item, s)[|done|] == CallOf(item, s[i])
  {
    CallsForAround(item, s, i);
    AbortAt(remote, done, CallOf(item, s[i]), CallsFor(item, s[i + 1..]), cur, accepts);
  }

  /** Item `i` adds its call and its count when it has a change, and nothing otherwise. */
  lemma ItemStep(item: ItemKind, s: seq<XmlChange>, i: nat)
    requires i < |s|
    ensures ChangeType(s[i]).None? ==>
              CallsFor(item, s[..i + 1]) == CallsFor(item, s[..i]) && Tally(s[..i + 1]) == Tally(s[..i])
    ensures ChangeType(s[i]).Some? ==>
              CallsFor(item, s[..i + 1]) == CallsFor(item, s[..i]) + [CallOf(item, s[i])] &&
              Tally(s[..i + 1]) == Bump(Tally(s[..i]), ChangeType(s[i]).value)
  {
    assert s[..i + 1][..i] == s[..i];
    CallsForSnoc(item, s[..i + 1]);
    TallySnoc(s[..i + 1]);
  }

  /**
   * One of the two loops of `apply_plan`, over the views or over the jobs:
   * each changed item gets its call and bumps its kind's count, starting
   * from `counts`. The result is the run of the dictionary's calls.
   */
  method ApplyItems(item: ItemKind, s: seq<XmlChange>, remote: Remote, counts: Counts, accepts: Server)
    returns (r: ApplyResult)
    ensures r.Applied? <==> Succeeds(remote, CallsFor(item, s), accepts)
    ensures r.Applied? ==> r.counts == Plus(counts, Tally(s))
    ensures r.remote == Run(remote, CallsFor(item, s), accepts).remote
    ensures r.Aborted? ==>
              var done := Run(remote, CallsFor(item, s), accepts).done;
              done < |CallsFor(item, s)| && r.failed == CallsFor(item, s)[done] &&
              Perform(r.remote, r.failed, accepts).None?
  {
    var tally := counts;
    var cur := remote;
    ghost var done: seq<Call> := [];
    var i := 0;
    PlusZeroRight(counts);
    while i < |s|
      invariant i <= |s|
      invariant done == CallsFor(item, s[..i])
      invariant Run(remote, done, accepts) == RunResult(|done|, cur)
      invariant tally == Plus(counts, Tally(s[..i]))
    {
      var c := s[i];
      ItemStep(item, s, i);
      var kind := ChangeType(c);
      if kind.Some? {
        var call := CallOf(item, c);
        var next := Perform(cur, call, accepts);
        if next.None? {
          AbortInLoop(item, s, i, remote, done, cur, accepts);
          return Aborted(call, cur);
        }
        RunExtend(remote, done, call, cur, next.value, accepts);
        PlusBump(counts, Tally(s[..i]), kind.value);
        cur := next.value;
        tally := Bump(tally, kind.value);
        done := done + [call];
      }
      i := i + 1;
    }
    assert s[..i] == s;
    r := Applied(tally, cur);
  }

  /**
   * `apply_plan`: the views' loop and then the jobs' loop. The outcome is
   * the run of the planned calls: when every call succeeds, the counts are
   * those of the plan report; otherwise the first failing call is reported,
   * no later call is made, and the server is left as the calls before it
   * made it.
   */
  method ApplyPlan(views: seq<XmlChange>, jobs: seq<XmlChange>, remote: Remote, accepts: Server)
    returns (r: ApplyResult)
    ensures r.Applied? <==> Succeeds(remote, PlannedCalls(views, jobs), accepts)
    ensures r.Applied? ==> r.counts == PlanCounts(views, jobs)
    ensures r.remote == Run(remote, PlannedCalls(views, jobs), accepts).remote
    ensures r.Aborted? ==>
              var done := Run(remote, PlannedCalls(views, jobs), accepts).done;
              done < |PlannedCalls(views, jobs)| && r.failed == PlannedCalls(views, jobs)[done] &&
              Perform(r.remote, r.failed, accepts).None?
    ensures r.Applied? && Valid(views) && Valid(jobs) ==>
              Reconciled(remote, r.remote, ViewItem, views) && Reconciled(remote, r.remote, JobItem, jobs)
  {
    var vc, jc := CallsFor(ViewItem, views), CallsFor(JobItem, jobs);
    var viewsDone := ApplyItems(ViewItem, views, remote, Zero, accepts);
    if viewsDone.Aborted? {
      RunStopsAtFailure(remote, vc, jc, accepts);
      return viewsDone;
    }
    PlusZero(Tally(views));
    RunConcat(remote, vc, jc, accepts);
    r := ApplyItems(JobItem, jobs, viewsDone.remote, viewsDone.counts, accepts);
    if r.Applied? && Valid(views) && Valid(jobs) {
      ApplyReconciles(views, jobs, remote, accepts);
    }
  }
}

=== FILE: change_dict.dfy ===
/**
 * The default-dict of changes: an insertion-ordered dictionary from name to
 * change, where looking up a missing name inserts a fresh entry for it.
 * Entry `d[i]` is stored under the key `d[i].name`.
 */
module ChangeDicts {
  import opened Wrappers
  import opened XmlChanges

  type ChangeDict = seq<XmlChange>

  /** Keys are unique. */
  ghost predicate Valid(d: ChangeDict)
  {
    forall i, j :: 0 <= i < j < |d| ==> d[i].name != d[j].name
  }

  predicate HasKey(d: ChangeDict, key: string)
  {
    exists i :: 0 <= i < |d| && d[i].name == key
  }

  /** The position of `key`, if it is a key. */
  function Find(d: ChangeDict, key: string): (r: Option<nat>)
    ensures r.Some? ==> r.value < |d| && d[r.value].name == key
    ensures r.None? <==> !HasKey(d, key)
  {
    if |d| == 0 then None
    else if d[|d| - 1].name == key then Some(|d| - 1)
    else
      var r := Find(d[..|d| - 1], key);
      assert forall i :: 0 <= i < |d| - 1 ==> d[..|d| - 1][i] == d[i];
      r
  }

  /**
   * `d[key]` with `__missing__`: an existing key leaves the dictionary as it
   * is; a missing key appends a fresh entry named `key` and nothing else.
   * The second component is the position of the returned entry.
   */
  function Lookup(d: ChangeDict, key: string): (r: (ChangeDict, nat))
    ensures r.1 < |r.0| && r.0[r.1].name == key
    ensures HasKey(d, key) ==> r.0 == d
    ensures !HasKey(d, key) ==> r.0 == d + [Fresh(key)] && r.1 == |d|
    ensures r.0[r.1] == if HasKey(d, key) then d[r.1] else Fresh(key)
    ensures Valid(d) ==> Valid(r.0)
  {
    match Find(d, key)
    case Some(i) => (d, i)
    case None => (d + [Fresh(key)], |d|)
  }

  /**
   * `d[key].before_xml = xml` or `d[key].after_xml = xml`: the entry for
   * `key` (inserted at the end when missing) gets the normalised text on the
   * given side, and every other entry, and the order, stay as they were.
   */
  function Assign(d: ChangeDict, key: string, side: Side, xml: string, norm: Normalizer): (r: ChangeDict)
    ensures Valid(d) ==> Valid(r)
    ensures HasKey(d, key) ==> |r| == |d|
    ensures !HasKey(d, key) ==> |r| == |d| + 1 && r[|d|] == SetSide(Fresh(key), side, xml, norm)
    ensures forall i :: 0 <= i < |d| ==> r[i].name == d[i].name
    ensures forall i :: 0 <= i < |d| && d[i].name != key ==> r[i] == d[i]
    ensures Valid(d) ==> forall i :: 0 <= i < |d| && d[i].name == key ==> r[i] == SetSide(d[i], side, xml, norm)
    ensures HasKey(r, key)
  {
    var (d1, i) := Lookup(d, key);
    var r := d1[i := SetSide(d1[i], side, xml, norm)];
    assert r[i].name == key;
    r
  }
}

=== FILE: connect_config.dfy ===
/**
 * The connection settings: the server URL with a trailing slash removed,
 * the credentials looked up first in the URL's own section and then in the
 * `[jenkins]` section, and a timeout that defaults to 60 seconds.
 */
module Connect {
  import opened Wrappers

  datatype ConnectConfig = ConnectConfig(url: Option<string>, username: Option<string>,
                                         password: Option<string>, timeout: int)

  /** The `ValueError` of `int(...)` on text that is not an integer literal. */
  datatype ConfigError = NotAnInteger(text: string)

  const DefaultTimeout: int := 60

  const JenkinsSection: string := "jenkins"

  predicate EndsWithSlash(s: string)
  {
    |s| > 0 && s[|s| - 1] == '/'
  }

  /** `url[:-1]` when `url` ends with a slash; one slash at most is removed. */
  function StripSlash(url: string): (r: string)
    ensures EndsWithSlash(url) ==> r + "/" == url
    ensures !EndsWithSlash(url) ==> r == url
  {
    if EndsWithSlash(url) then url[..|url| - 1] else url
  }

  predicate IsDigit(c: char)
  {
    '0' <= c <= '9'
  }

  predicate AllDigits(s: string)
  {
    forall i :: 0 <= i < |s| ==> IsDigit(s[i])
  }

  /** The value of a string of decimal digits, most significant first. */
  function DigitsValue(s: string): nat
    requires AllDigits(s)
  {
    if |s| == 0 then 0
    else DigitsValue(s[..|s| - 1]) * 10 + (s[|s| - 1] as int - '0' as int)
  }

  /** An optional sign followed by one or more decimal digits. */
  predicate IsIntLiteral(s: string)
  {
    || (|s| > 0 && AllDigits(s))
    || (|s| > 1 && (s[0] == '-' || s[0] == '+') && AllDigits(s[1..]))
  }

  /**
   * `int(text)` on an optional sign followed by one or more decimal digits:
   * the digits' value, negated after a minus sign; anything else fails.
   */
  function ParseInt(s: string): (r: Option<int>)
    ensures r.Some? <==> IsIntLiteral(s)
    ensures r.Some? && AllDigits(s) ==> r.value == DigitsValue(s)
    ensures r.Some? && s[0] == '+' ==> r.value == DigitsValue(s[1..])
    ensures r.Some? && s[0] == '-' ==> r.value == -(DigitsValue(s[1..]) as int)
  {
    if |s| > 0 && (s[0] == '-' || s[0] == '+') then
      var digits := s[1..];
      if |digits| > 0 && AllDigits(digits) then
        var v: int := DigitsValue(digits);
        Some(if s[0] == '-' then -v else v)
      else None
    else if |s| > 0 && AllDigits(s) then Some(DigitsValue(s))
    else None
  }

  /** The decimal digits of `n`, without leading zeros. */
  function ShowNat(n: nat): (r: string)
    ensures |r| > 0 && AllDigits(r)
  {
    var d := ['0' + (n % 10) as char];
    if n < 10 then d else ShowNat(n / 10) + d
  }

  /** Reading back the decimal digits of a number gives the number. */
  lemma {:induction false} DigitsOfShowNat(n: nat)
    ensures DigitsValue(ShowNat(n)) == n
  {
    var s := ShowNat(n);
    if n >= 10 {
      DigitsOfShowNat(n / 10);
      assert s[..|s| - 1] == ShowNat(n / 10);
    }
  }

  /** `int` reads back a number written in decimal, with or without a sign. */
  lemma ParseShowNat(n: nat)
    ensures ParseInt(ShowNat(n)) == Some(n)
    ensures ParseInt("+" + ShowNat(n)) == Some(n)
    ensures ParseInt("-" + ShowNat(n)) == Some(-(n as int))
  {
    DigitsOfShowNat(n);
    assert ("+" + ShowNat(n))[1..] == ShowNat(n);
    assert ("-" + ShowNat(n))[1..] == ShowNat(n);
  }

  /** `int(timeout or 60)`: the default when the text is absent or empty, else the parsed text. */
  function TimeoutOf(timeout: Option<string>): (r: Result<int, ConfigError>)
    ensures !Truthy(timeout) ==> r == Success(DefaultTimeout)
    ensures Truthy(timeout) && ParseInt(timeout.value).None? ==> r == Failure(NotAnInteger(timeout.value))
    ensures timeout.Some? && ParseInt(timeout.value).Some? ==> r == Success(ParseInt(timeout.value).value)
  {
    if !Truthy(timeout) then Success(DefaultTimeout)
    else
      match ParseInt(timeout.value)
      case Some(v) => Success(v)
      case None => Failure(NotAnInteger(timeout.value))
  }

  /** A timeout written in decimal is that many seconds. */
  lemma TimeoutOfDecimal(n: nat)
    ensures TimeoutOf(Some(ShowNat(n))) == Success(n)
    ensures TimeoutOf(Some("-" + ShowNat(n))) == Success(-(n as int))
  {
    ParseShowNat(n);
  }

  /**
   * The constructor: a present URL loses one trailing slash, the
   * credentials are kept as given, and the timeout is `TimeoutOf`.
   */
  function NewConnectConfig(url: Option<string>, username: Option<string>, password: Option<string>,
                            timeout: Option<string>): (r: Result<ConnectConfig, ConfigError>)
    ensures r.Success? <==> TimeoutOf(timeout).Success?
    ensures r.Success? ==> r.value.timeout == TimeoutOf(timeout).value
    ensures r.Success? ==> r.value.username == username && r.value.password == password
    ensures r.Success? ==> r.value.url.Some? == url.Some?
    ensures r.Success? && url.Some? ==> !EndsWithSlash(url.value) ==> r.value.url == url
    ensures r.Success? && url.Some? ==> EndsWithSlash(url.value) ==> r.value.url.value + "/" == url.value
  {
    var t :- TimeoutOf(timeout);
    var u := if url.Some? then Some(StripSlash(url.value)) else None;
    Success(ConnectConfig(u, username, password, t))
  }

  /** A configuration parser's contents: section name to option name to value. */
  type Ini = map<string, map<string, string>>

  /** `cp.get(section, key, fallback=None)`: a missing section or option gives `None`. */
  function Get(cp: Ini, section: Option<string>, key: string): Option<string>
  {
    if section.Some? && section.value in cp && key in cp[section.value]
    then Some(cp[section.value][key])
    else None
  }

  /**
   * `_section_by_url`: a value that is set and non-empty in the URL's own
   * section wins; otherwise the `[jenkins]` value is used, or nothing.
   */
  function SectionByUrl(cp: Ini, url: Option<string>, key: string): (r: Option<string>)
    ensures url.Some? && url.value in cp && key in cp[url.value] && cp[url.value][key] != "" ==>
              r == Some(cp[url.value][key])
    ensures !(url.Some? && url.value in cp && key in cp[url.value] && cp[url.value][key] != "") ==>
              r == if JenkinsSection in cp && key in cp[JenkinsSection] then Some(cp[JenkinsSection][key]) else None
  {
    var own := Get(cp, url, key);
    if Truthy(own) then own else Get(cp, Some(JenkinsSection), key)
  }

  /**
   * `read_dict({"jenkins": overrides})`: the overrides replace or add
   * options of `[jenkins]`, its other options stay, and no other section
   * changes.
   */
  function WithOverrides(cp: Ini, overrides: Option<map<string, string>>): (r: Ini)
    ensures overrides.None? ==> r == cp
    ensures overrides.Some? ==> JenkinsSection in r
    ensures overrides.Some? ==> forall k :: k in overrides.value ==>
              k in r[JenkinsSection] && r[JenkinsSection][k] == overrides.value[k]
    ensures overrides.Some? ==> forall k :: k !in overrides.value && JenkinsSection in cp && k in cp[JenkinsSection] ==>
              k in r[JenkinsSection] && r[JenkinsSection][k] == cp[JenkinsSection][k]
    ensures overrides.Some? ==> forall k :: k in r[JenkinsSection] ==>
              k in overrides.value || (JenkinsSection in cp && k in cp[JenkinsSection])
    ensures forall sec :: sec != JenkinsSection ==> (sec in r <==> sec in cp)
    ensures forall sec :: sec != JenkinsSection && sec in cp ==> r[sec] == cp[sec]
  {
    match overrides
    case None => cp
    case Some(o) =>
      var base := if JenkinsSection in cp then cp[JenkinsSection] else map[];
      cp[JenkinsSection := base + o]
  }

  /**
   * `load_from_files` on the merged contents of the configuration files:
   * the overrides are merged into `[jenkins]`, the URL is read from there
   * and, when truthy, loses one trailing slash; the credentials and the
   * timeout are looked up by that URL; the constructor then strips the URL
   * once more.
   */
  function LoadFromFiles(cp: Ini, overrides: Option<map<string, string>>): (r: Result<ConnectConfig, ConfigError>)
    ensures var merged := WithOverrides(cp, overrides);
            var raw := Get(merged, Some(JenkinsSection), "url");
            var url := if Truthy(raw) then Some(StripSlash(raw.value)) else raw;
            && (r.Success? <==> TimeoutOf(SectionByUrl(merged, url, "timeout")).Success?)
            && (r.Success? ==> r.value.username == SectionByUrl(merged, url, "username"))
            && (r.Success? ==> r.value.password == SectionByUrl(merged, url, "password"))
            && (r.Success? ==> r.value.timeout == TimeoutOf(SectionByUrl(merged, url, "timeout")).value)
            && (r.Success? ==> r.value.url.Some? == raw.Some?)
            && (r.Success? && raw.Some? && !EndsWithSlash(raw.value) ==> r.value.url == raw)
  {
    var merged := WithOverrides(cp, overrides);
    var raw := Get(merged, Some(JenkinsSection), "url");
    var url := if Truthy(raw) then Some(StripSlash(raw.value)) else raw;
    NewConnectConfig(url, SectionByUrl(merged, url, "username"), SectionByUrl(merged, url, "password"),
                     SectionByUrl(merged, url, "timeout"))
  }

  /**
   * The loaded URL loses the trailing slash of the `[jenkins]` value, and
   * a second one if there were two: the loader and the constructor each
   * strip one.
   */
  lemma LoadedUrlStripsSlashes(cp: Ini, overrides: Option<map<string, string>>, base: string)
    requires !EndsWithSlash(base)
    requires var raw := Get(WithOverrides(cp, overrides), Some(JenkinsSection), "url");
             raw == Some(base + "/") || raw == Some(base + "//")
    ensures LoadFromFiles(cp, overrides).Success? ==> LoadFromFiles(cp, overrides).value.url == Some(base)
  {
    assert (base + "//")[..|base + "//"| - 1] == base + "/";
    assert (base + "/")[..|base + "/"| - 1] == base;
  }

  /** A URL given as an override is the one loaded, whatever the files say. */
  lemma OverrideUrlWins(cp: Ini, o: map<string, string>)
    requires "url" in o
    ensures Get(WithOverrides(cp, Some(o)), Some(JenkinsSection), "url") == Some(o["url"])
  {
  }
}

=== FILE: gather.dfy ===
/**
 * Gathering the plan's input: the jobs are read from the server first and
 * the locally generated jobs and views are stored afterwards, so in the job
 * dictionary the names found on the server come before names that exist
 * only locally. Views are never read from the server.
 */
module Gather {
  import opened Wrappers
  import opened XmlChanges
  import opened ChangeDicts
  import opened RemoteRead

  /** One job or view produced by the local generator: its name and its XML. */
  datatype Generated = Generated(name: string, xml: string)

  function GenNames(gen: seq<Generated>): set<string>
  {
    if |gen| == 0 then {} else GenNames(gen[..|gen| - 1]) + {gen[|gen| - 1].name}
  }

  /** The XML of the last generated item named `n`: later items overwrite earlier ones. */
  function LastXml(gen: seq<Generated>, n: string): string
    requires n in GenNames(gen)
  {
    if gen[|gen| - 1].name == n then gen[|gen| - 1].xml else LastXml(gen[..|gen| - 1], n)
  }

  /**
   * What storing the generated items `gen` into `d` leaves in `r`: existing
   * entries keep their order, names and before sides; every generated name is
   * a key and carries the last XML generated for it, normalised, as after
   * side; appended entries are generated names with no before side;
   * everything else is untouched.
   */
  ghost predicate LoadedInto(d: ChangeDict, r: ChangeDict, gen: seq<Generated>, norm: Normalizer)
  {
    && Valid(r)
    && |r| >= |d|
    && (forall i :: 0 <= i < |d| ==> r[i].name == d[i].name && r[i].before == d[i].before)
    && (forall i :: |d| <= i < |r| ==> r[i].before.None? && r[i].name in GenNames(gen))
    && (forall i :: 0 <= i < |r| && r[i].name in GenNames(gen) ==>
          r[i].after == Some(norm(LastXml(gen, r[i].name))))
    && (forall i :: 0 <= i < |r| && r[i].name !in GenNames(gen) ==> i < |d| && r[i] == d[i])
    && (forall n :: n in GenNames(gen) ==> HasKey(r, n))
  }

  /** One more stored item keeps the order, the before sides and the untouched entries. */
  lemma {:induction false} LoadStepShape(d: ChangeDict, r: ChangeDict, gen: seq<Generated>, norm: Normalizer)
    requires |gen| > 0
    requires LoadedInto(d, r, gen[..|gen| - 1], norm)
    ensures var r' := Assign(r, gen[|gen| - 1].name, After, gen[|gen| - 1].xml, norm);
      && Valid(r')
      && |r'| >= |d|
      && (forall i :: 0 <= i < |d| ==> r'[i].name == d[i].name && r'[i].before == d[i].before)
      && (forall i :: |d| <= i < |r'| ==> r'[i].before.None? && r'[i].name in GenNames(gen))
      && (forall i :: 0 <= i < |r'| && r'[i].name !in GenNames(gen) ==> i < |d| && r'[i] == d[i])
  {
    assert GenNames(gen) == GenNames(gen[..|gen| - 1]) + {gen[|gen| - 1].name};
  }

  /** One more stored item gives every generated name its last XML as after side. */
  lemma {:induction false} LoadStepAfter(d: ChangeDict, r: ChangeDict, gen: seq<Generated>, norm: Normalizer)
    requires |gen| > 0
    requires LoadedInto(d, r, gen[..|gen| - 1], norm)
    ensures var r' := Assign(r, gen[|gen| - 1].name, After, gen[|gen| - 1].xml, norm);
      forall i :: 0 <= i < |r'| && r'[i].name in GenNames(gen) ==>
        r'[i].after == Some(norm(LastXml(gen, r'[i].name)))
  {
    var last, p := gen[|gen| - 1], gen[..|gen| - 1];
    var r' := Assign(r, last.name, After, last.xml, norm);
    forall i | 0 <= i < |r'| && r'[i].name in GenNames(gen)
      ensures r'[i].after == Some(norm(LastXml(gen, r'[i].name)))
    {
      if r'[i].name != last.name {
        assert LastXml(gen, r'[i].name) == LastXml(p, r'[i].name);
      }
    }
  }

  /** One more stored item keeps every generated name a key. */
  lemma {:induction false} LoadStepKeys(d: ChangeDict, r: ChangeDict, gen: seq<Generated>, norm: Normalizer)
    requires |gen| > 0
    requires LoadedInto(d, r, gen[..|gen| - 1], norm)
    ensures var r' := Assign(r, gen[|gen| - 1].name, After, gen[|gen| - 1].xml, norm);
      forall n :: n in GenNames(gen) ==> HasKey(r', n)
  {
    var last := gen[|gen| - 1];
    var r' := Assign(r, last.name, After, last.xml, norm);
    forall n | n in GenNames(gen)
      ensures HasKey(r', n)
    {
      if n != last.name {
        var i :| 0 <= i < |r| && r[i].name == n;
        assert r'[i].name == n;
      }
    }
  }

  /** Storing one more generated item keeps the shape of `LoadedInto`. */
  lemma {:induction false} LoadStep(d: ChangeDict, r: ChangeDict, gen: seq<Generated>, norm: Normalizer)
    requires |gen| > 0
    requires LoadedInto(d, r, gen[..|gen| - 1], norm)
    ensures LoadedInto(d, Assign(r, gen[|gen| - 1].name, After, gen[|gen| - 1].xml, norm), gen, norm)
  {
    LoadStepShape(d, r, gen, norm);
    LoadStepAfter(d, r, gen, norm);
    LoadStepKeys(d, r, gen, norm);
  }

  /**
   * The storing half of `generate_jjb_xml`: each generated item's XML is
   * assigned, normalised, to the after side of its name's entry. Existing
   * entries keep their order and before sides; generated names get the
   * last XML generated for them; new names are appended with no before side.
   */
  function LoadLocal(d: ChangeDict, gen: seq<Generated>, norm: Normalizer): (r: ChangeDict)
    requires Valid(d)
    ensures Valid(r)
    ensures |r| >= |d|
    ensures forall i :: 0 <= i < |d| ==> r[i].name == d[i].name && r[i].before == d[i].before
    ensures forall i :: |d| <= i < |r| ==> r[i].before.None? && r[i].name in GenNames(gen)
    ensures forall i :: 0 <= i < |r| && r[i].name in GenNames(gen) ==>
              r[i].after == Some(norm(LastXml(gen, r[i].name)))
    ensures forall i :: 0 <= i < |r| && r[i].name !in GenNames(gen) ==> i < |d| && r[i] == d[i]
    ensures forall n :: n in GenNames(gen) ==> HasKey(r, n)
  {
    if |gen| == 0 then d
    else
      var prev := LoadLocal(d, gen[..|gen| - 1], norm);
      LoadStep(d, prev, gen, norm);
      Assign(prev, gen[|gen| - 1].name, After, gen[|gen| - 1].xml, norm)
  }

  /** The shape of a gathered job dictionary. */
  ghost predicate Gathered(jobs: ChangeDict, listing: seq<JobInfo>, fetch: string -> string,
                           norm: Normalizer, gen: seq<Generated>)
  {
    && Valid(jobs)
    && (forall i :: 0 <= i < |jobs| ==>
          jobs[i].before == if jobs[i].name in ReadNames(listing) then Some(norm(fetch(jobs[i].name))) else None)
    && (forall i :: 0 <= i < |jobs| ==>
          jobs[i].after == if jobs[i].name in GenNames(gen) then Some(norm(LastXml(gen, jobs[i].name))) else None)
    && (forall i :: 0 <= i < |jobs| ==> jobs[i].name in ReadNames(listing) || jobs[i].name in GenNames(gen))
    && (forall n :: n in ReadNames(listing) ==> HasKey(jobs, n))
    && (forall n :: n in GenNames(gen) ==> HasKey(jobs, n))
    && (forall i, j :: 0 <= i < j < |jobs| && jobs[j].name in ReadNames(listing) ==> jobs[i].name in ReadNames(listing))
  }

  /** The shape of the job dictionary `read_jobs` builds from an empty one. */
  ghost predicate ReadShape(read: ChangeDict, listing: seq<JobInfo>, fetch: string -> string, norm: Normalizer)
  {
    && Valid(read)
    && (forall i :: 0 <= i < |read| ==>
          read[i].name in ReadNames(listing) && read[i].after.None? &&
          read[i].before == Some(norm(fetch(read[i].name))))
    && (forall n :: n in ReadNames(listing) ==> HasKey(read, n))
  }

  /** Storing the generated jobs after the read ones gives the gathered shape. */
  lemma LoadAfterRead(read: ChangeDict, listing: seq<JobInfo>, fetch: string -> string,
                      norm: Normalizer, gen: seq<Generated>)
    requires ReadShape(read, listing, fetch, norm)
    ensures Gathered(LoadLocal(read, gen, norm), listing, fetch, norm, gen)
  {
    var jobs := LoadLocal(read, gen, norm);
    forall n | n in ReadNames(listing)
      ensures HasKey(jobs, n)
    {
      var k :| 0 <= k < |read| && read[k].name == n;
      assert jobs[k].name == n;
    }
  }

  /**
   * `gather`: reads the jobs from the server into empty dictionaries, then
   * stores the generated jobs and views. The job dictionary has the gathered
   * shape; every view has no before side, so a view with a change is never
   * deleted, and a generated view normalising to non-empty text is created.
   */
  method Gather(listing: seq<JobInfo>, fetch: string -> string, norm: Normalizer,
                genJobs: seq<Generated>, genViews: seq<Generated>)
    returns (jobs: ChangeDict, views: ChangeDict)
    ensures Gathered(jobs, listing, fetch, norm, genJobs)
    ensures Valid(views)
    ensures forall i :: 0 <= i < |views| ==> views[i].before.None? && views[i].name in GenNames(genViews)
    ensures forall i :: 0 <= i < |views| ==> views[i].after == Some(norm(LastXml(genViews, views[i].name)))
    ensures forall n :: n in GenNames(genViews) ==> HasKey(views, n)
    ensures forall i :: 0 <= i < |views| ==> ChangeType(views[i]) != Some(Delete)
    ensures forall i :: 0 <= i < |views| && views[i].after != Some("") ==> ChangeType(views[i]) == Some(Create)
  {
    var read, _ := ReadJobs(listing, fetch, norm, []);
    assert ReadShape(read, listing, fetch, norm);
    jobs := LoadLocal(read, genJobs, norm);
    LoadAfterRead(read, listing, fetch, norm, genJobs);
    views := LoadLocal([], genViews, norm);
  }

  /**
   * How a gathered job is classified: a job found on the server with no
   * local definition is deleted, a local job not on the server is created,
   * and a job on both sides is unchanged exactly when the normalised texts
   * agree. The create and delete cases need the present side to normalise
   * to non-empty text.
   */
  lemma GatheredClassification(jobs: ChangeDict, listing: seq<JobInfo>, fetch: string -> string,
                               norm: Normalizer, gen: seq<Generated>, i: nat)
    requires Gathered(jobs, listing, fetch, norm, gen)
    requires i < |jobs|
    ensures var n := jobs[i].name;
            n in ReadNames(listing) && n !in GenNames(gen) && norm(fetch(n)) != "" ==>
              ChangeType(jobs[i]) == Some(Delete)
    ensures var n := jobs[i].name;
            n !in ReadNames(listing) && n in GenNames(gen) && norm(LastXml(gen, n)) != "" ==>
              ChangeType(jobs[i]) == Some(Create)
    ensures var n := jobs[i].name;
            n in ReadNames(listing) && n in GenNames(gen) ==>
              (ChangeType(jobs[i]).None? <==> norm(fetch(n)) == norm(LastXml(gen, n)))
  {
  }

  /**
   * A job below an organisation folder is never fetched: along a chain of
   * sub-jobs starting at a folder, the gathered entry of every job below the
   * head that is not itself a folder has no before side.
   */
  lemma SkippedDescendantHasNoBefore(jobs: ChangeDict, listing: seq<JobInfo>, fetch: string -> string,
                                     norm: Normalizer, gen: seq<Generated>, c: seq<nat>, t: nat)
    requires Gathered(jobs, listing, fetch, norm, gen)
    requires UniqueNames(listing)
    requires FolderChain(listing, c)
    requires 0 < t < |c| && !IsManaging(listing[c[t]])
    ensures forall i :: 0 <= i < |jobs| && jobs[i].name == listing[c[t]].fullname ==> jobs[i].before.None?
  {
    DescendantsOfFolderAreSkipped(listing, c);
    SkippedNameNotRead(listing, c[t]);
  }
}

=== FILE: plan.dfy ===
/**
 * Summarising a gathered plan: whether anything changes at all, how many
 * items of each kind change, which items get a diff block in the report,
 * and the closing summary line.
 */
module Plan {
  import opened Wrappers
  import opened XmlChanges

  /** Per-kind counts, the `{CREATE: n, UPDATE: n, DELETE: n}` dictionary. */
  datatype Counts = Counts(created: nat, updated: nat, deleted: nat)

  const Zero: Counts := Counts(0, 0, 0)

  function Total(c: Counts): nat
  {
    c.created + c.updated + c.deleted
  }

  function Plus(a: Counts, b: Counts): Counts
  {
    Counts(a.created + b.created, a.updated + b.updated, a.deleted + b.deleted)
  }

  lemma PlusZero(c: Counts)
    ensures Plus(Zero, c) == c
  {
  }

  lemma PlusZeroRight(c: Counts)
    ensures Plus(c, Zero) == c
  {
  }

  /** `changecounts[kind] += 1`. */
  function Bump(c: Counts, k: ChangeKind): Counts
  {
    match k
    case Create => c.(created := c.created + 1)
    case Update => c.(updated := c.updated + 1)
    case Delete => c.(deleted := c.deleted + 1)
  }

  /** No item of `s` has a change. */
  ghost predicate Unchanged(s: seq<XmlChange>)
  {
    forall i :: 0 <= i < |s| ==> ChangeType(s[i]).None?
  }

  /** The number of items of `s` whose change is of kind `k`. */
  function CountKind(s: seq<XmlChange>, k: ChangeKind): nat
  {
    if |s| == 0 then 0
    else CountKind(s[..|s| - 1], k) + if ChangeType(s[|s| - 1]) == Some(k) then 1 else 0
  }

  function Tally(s: seq<XmlChange>): Counts
  {
    Counts(CountKind(s, Create), CountKind(s, Update), CountKind(s, Delete))
  }

  lemma PlusBump(a: Counts, b: Counts, k: ChangeKind)
    ensures Plus(a, Bump(b, k)) == Bump(Plus(a, b), k)
  {
  }

  /** Adding one item to the end adds one to the count of its kind, if it has a change. */
  lemma TallySnoc(s: seq<XmlChange>)
    requires |s| > 0
    ensures ChangeType(s[|s| - 1]).None? ==> Tally(s) == Tally(s[..|s| - 1])
    ensures ChangeType(s[|s| - 1]).Some? ==> Tally(s) == Bump(Tally(s[..|s| - 1]), ChangeType(s[|s| - 1]).value)
  {
  }

  /** The counts over views and jobs together. */
  function PlanCounts(views: seq<XmlChange>, jobs: seq<XmlChange>): Counts
  {
    Plus(Tally(views), Tally(jobs))
  }

  /** The items of `s` that have a change, in order. */
  function Changed(s: seq<XmlChange>): (r: seq<XmlChange>)
    ensures |r| <= |s|
    ensures forall t :: 0 <= t < |r| ==> ChangeType(r[t]).Some?
  {
    if |s| == 0 then []
    else Changed(s[..|s| - 1]) + if ChangeType(s[|s| - 1]).Some? then [s[|s| - 1]] else []
  }

  /** `Changed` keeps exactly the items of `s` that have a change. */
  lemma {:induction false} ChangedMembers(s: seq<XmlChange>)
    ensures forall c :: c in Changed(s) <==> c in s && ChangeType(c).Some?
  {
    if |s| > 0 {
      var init := s[..|s| - 1];
      ChangedMembers(init);
      assert s == init + [s[|s| - 1]];
    }
  }

  /** Each changed item is counted under exactly one kind. */
  lemma {:induction false} ChangedAreCounted(s: seq<XmlChange>)
    ensures |Changed(s)| == Total(Tally(s))
  {
    if |s| > 0 {
      ChangedAreCounted(s[..|s| - 1]);
    }
  }

  /** All counts are zero exactly when no item changes. */
  lemma {:induction false} ZeroTallyIffUnchanged(s: seq<XmlChange>)
    ensures Total(Tally(s)) == 0 <==> Unchanged(s)
  {
    if |s| > 0 {
      var init := s[..|s| - 1];
      ZeroTallyIffUnchanged(init);
      assert forall i :: 0 <= i < |s| - 1 ==> init[i] == s[i];
    }
  }

  /**
   * `detected_changes`: scans the jobs and then the views and answers true
   * exactly when some item has a change.
   */
  method DetectedChanges(jobs: seq<XmlChange>, views: seq<XmlChange>) returns (r: bool)
    ensures r <==> !(Unchanged(jobs) && Unchanged(views))
  {
    var items := jobs + views;
    var i := 0;
    while i < |items|
      invariant i <= |items|
      invariant forall t :: 0 <= t < i ==> ChangeType(items[t]).None?
    {
      if ChangeType(items[i]).Some? {
        if i < |jobs| {
          assert items[i] == jobs[i];
        } else {
          assert items[i] == views[i - |jobs|];
        }
        return true;
      }
      i := i + 1;
    }
    assert forall t :: 0 <= t < |jobs| ==> items[t] == jobs[t];
    assert forall t :: 0 <= t < |views| ==> items[|jobs| + t] == views[t];
    return false;
  }

  /** The last line of the report. */
  datatype Summary = NoChanges | Totals(added: nat, updated: nat, removed: nat)

  /** The totals line when any count is non-zero, otherwise "No changes.". */
  function SummaryOf(c: Counts): (r: Summary)
    ensures r.NoChanges? <==> Total(c) == 0
    ensures r.Totals? ==> r == Totals(c.created, c.updated, c.deleted)
  {
    if c.created != 0 || c.updated != 0 || c.deleted != 0
    then Totals(c.created, c.updated, c.deleted)
    else NoChanges
  }

  /**
   * The report, with each diff block represented by the change it is
   * rendered from.
   */
  datatype Report = Report(blocks: seq<XmlChange>, counts: Counts, summary: Summary)

  /**
   * `iter_changes`: walks the items in order, skips the unchanged ones,
   * bumps the count of each change's kind and yields one block per change.
   */
  method IterChanges(s: seq<XmlChange>, counts: Counts) returns (blocks: seq<XmlChange>, counts': Counts)
    ensures blocks == Changed(s)
    ensures counts' == Plus(counts, Tally(s))
  {
    blocks, counts' := [], counts;
    var i := 0;
    while i < |s|
      invariant i <= |s|
      invariant blocks == Changed(s[..i])
      invariant counts' == Plus(counts, Tally(s[..i]))
    {
      assert s[..i + 1][..i] == s[..i];
      var kind := ChangeType(s[i]);
      if kind.Some? {
        counts' := Bump(counts', kind.value);
        blocks := blocks + [s[i]];
      }
      i := i + 1;
    }
    assert s[..i] == s;
  }

  /**
   * `plan_report`: the views' blocks, then the jobs' blocks, then the
   * summary, which is "No changes." exactly when all three counts are zero.
   */
  method PlanReport(views: seq<XmlChange>, jobs: seq<XmlChange>) returns (r: Report)
    ensures r.blocks == Changed(views) + Changed(jobs)
    ensures forall t :: 0 <= t < |r.blocks| ==> ChangeType(r.blocks[t]).Some?
    ensures r.counts == PlanCounts(views, jobs)
    ensures |r.blocks| == Total(r.counts)
    ensures r.summary.NoChanges? <==> Total(r.counts) == 0
    ensures r.summary.NoChanges? <==> Unchanged(views) && Unchanged(jobs)
    ensures r.summary.Totals? ==> r.summary == Totals(r.counts.created, r.counts.updated, r.counts.deleted)
  {
    var viewBlocks, counts := IterChanges(views, Zero);
    var tv := Tally(views);
    PlusZero(tv);
    var jobBlocks, counts' := IterChanges(jobs, counts);
    ChangedAreCounted(views);
    ChangedAreCounted(jobs);
    assert |viewBlocks + jobBlocks| == Total(counts');
    ZeroTallyIffUnchanged(views);
    ZeroTallyIffUnchanged(jobs);
    assert Total(counts') == 0 <==> Unchanged(views) && Unchanged(jobs);
    var summary := SummaryOf(counts');
    r := Report(viewBlocks + jobBlocks, counts', summary);
  }
}

=== FILE: read_jobs.dfy ===
/**
 * Reading the server's job listing into the before sides of the job
 * dictionary. Jobs of the job-managing class (`OrganizationFolder`) register
 * the URLs of their sub-jobs; a listed job whose URL is registered is
 * ignored and registers its own sub-jobs in turn, so whole subtrees under an
 * organisation folder are skipped. Every other listed job, the folder itself
 * included, gets its fetched configuration as its before side.
 */
module RemoteRead {
  import opened Wrappers
  import opened XmlChanges
  import opened ChangeDicts

  /** One entry of the server's job listing. */
  datatype JobInfo = JobInfo(fullname: string, url: string, jobClass: string, subjobUrls: seq<string>)

  /** The only member of the set of job-managing job classes. */
  const OrganizationFolder: string := "jenkins.branch.OrganizationFolder"

  predicate IsManaging(j: JobInfo)
  {
    j.jobClass == OrganizationFolder
  }

  function UrlSet(urls: seq<string>): set<string>
  {
    set u | u in urls
  }

  /** The ignored-URL set once every entry of `listing` has been processed. */
  function RegisteredBy(listing: seq<JobInfo>): set<string>
  {
    if |listing| == 0 then {}
    else
      var k := |listing| - 1;
      RegisteredBy(listing[..k])
        + if Registers(listing, k) then UrlSet(listing[k].subjobUrls) else {}
  }

  /** Entry `k` registers its sub-jobs: it is a managing folder, or it is itself ignored. */
  predicate Registers(listing: seq<JobInfo>, k: nat)
    requires k < |listing|
  {
    IsManaging(listing[k]) || listing[k].url in RegisteredBy(listing[..k])
  }

  /** Entry `k` has its configuration fetched: a managing folder, or a URL nobody registered. */
  predicate IsRead(listing: seq<JobInfo>, k: nat)
    requires k < |listing|
  {
    IsManaging(listing[k]) || listing[k].url !in RegisteredBy(listing[..k])
  }

  /** The names whose configuration is fetched. */
  function ReadNames(listing: seq<JobInfo>): set<string>
  {
    if |listing| == 0 then {}
    else
      var k := |listing| - 1;
      ReadNames(listing[..k]) + if IsRead(listing, k) then {listing[k].fullname} else {}
  }

  /** Processing entry `k` adds its sub-jobs to the ignored set if it registers, and its name to the read names if it is read. */
  lemma ListingStep(listing: seq<JobInfo>, k: nat)
    requires k < |listing|
    ensures RegisteredBy(listing[..k + 1]) ==
              RegisteredBy(listing[..k]) + if Registers(listing, k) then UrlSet(listing[k].subjobUrls) else {}
    ensures ReadNames(listing[..k + 1]) ==
              ReadNames(listing[..k]) + if IsRead(listing, k) then {listing[k].fullname} else {}
  {
    assert listing[..k + 1][..k] == listing[..k];
  }

  /**
   * What reading the names `names` into `jobs` leaves in `r`: existing
   * entries keep their order, names and after sides; every read name is a
   * key and carries its normalised fetched text as before side; appended
   * entries are read names with no after side; everything else is untouched.
   */
  ghost predicate ReadInto(jobs: ChangeDict, r: ChangeDict, names: set<string>, fetch: string -> string, norm: Normalizer)
  {
    && Valid(r)
    && |r| >= |jobs|
    && (forall i :: 0 <= i < |jobs| ==> r[i].name == jobs[i].name && r[i].after == jobs[i].after)
    && (forall i :: |jobs| <= i < |r| ==> r[i].after.None? && r[i].name in names)
    && (forall i :: 0 <= i < |r| && r[i].name in names ==> r[i].before == Some(norm(fetch(r[i].name))))
    && (forall i :: 0 <= i < |r| && r[i].name !in names ==> i < |jobs| && r[i] == jobs[i])
    && (forall n :: n in names ==> HasKey(r, n))
  }

  /** Reading one more name keeps the order, the after sides and the untouched entries. */
  lemma ReadIntoShape(jobs: ChangeDict, r: ChangeDict, names: set<string>, name: string,
                      fetch: string -> string, norm: Normalizer)
    requires ReadInto(jobs, r, names, fetch, norm)
    ensures var r' := Assign(r, name, Before, fetch(name), norm);
      && Valid(r')
      && |r'| >= |jobs|
      && (forall i :: 0 <= i < |jobs| ==> r'[i].name == jobs[i].name && r'[i].after == jobs[i].after)
      && (forall i :: |jobs| <= i < |r'| ==> r'[i].after.None? && r'[i].name in names + {name})
      && (forall i :: 0 <= i < |r'| && r'[i].name !in names + {name} ==> i < |jobs| && r'[i] == jobs[i])
  {
  }

  /** Reading one more name gives every read name its fetched text and keeps it a key. */
  lemma {:induction false} ReadIntoSides(jobs: ChangeDict, r: ChangeDict, names: set<string>, name: string,
                                         fetch: string -> string, norm: Normalizer)
    requires ReadInto(jobs, r, names, fetch, norm)
    ensures var r' := Assign(r, name, Before, fetch(name), norm);
      && (forall i :: 0 <= i < |r'| && r'[i].name in names + {name} ==> r'[i].before == Some(norm(fetch(r'[i].name))))
      && (forall n :: n in names + {name} ==> HasKey(r', n))
  {
    var r' := Assign(r, name, Before, fetch(name), norm);
    forall n | n in names + {name}
      ensures HasKey(r', n)
    {
      if n != name {
        var i :| 0 <= i < |r| && r[i].name == n;
        assert r'[i].name == n;
      }
    }
  }

  /** Reading one more name keeps the shape of `ReadInto`. */
  lemma ReadIntoStep(jobs: ChangeDict, r: ChangeDict, names: set<string>, name: string,
                     fetch: string -> string, norm: Normalizer)
    requires ReadInto(jobs, r, names, fetch, norm)
    ensures ReadInto(jobs, Assign(r, name, Before, fetch(name), norm), names + {name}, fetch, norm)
  {
    ReadIntoShape(jobs, r, names, name, fetch, norm);
    ReadIntoSides(jobs, r, names, name, fetch, norm);
  }

  /**
   * `read_jobs`: `fetch` is the server's answer to a configuration request
   * for a job name. Existing entries keep their order and after sides; names
   * read from the server get the normalised fetched text as before side
   * (new ones appended with no after side); all other entries are untouched.
   */
  method ReadJobs(listing: seq<JobInfo>, fetch: string -> string, norm: Normalizer, jobs: ChangeDict)
    returns (r: ChangeDict, ignored: set<string>)
    requires Valid(jobs)
    ensures Valid(r)
    ensures ignored == RegisteredBy(listing)
    ensures |r| >= |jobs|
    ensures forall i :: 0 <= i < |jobs| ==> r[i].name == jobs[i].name && r[i].after == jobs[i].after
    ensures forall i :: |jobs| <= i < |r| ==> r[i].after.None? && r[i].name in ReadNames(listing)
    ensures forall i :: 0 <= i < |r| && r[i].name in ReadNames(listing) ==>
              r[i].before == Some(norm(fetch(r[i].name)))
    ensures forall i :: 0 <= i < |r| && r[i].name !in ReadNames(listing) ==> i < |jobs| && r[i] == jobs[i]
    ensures forall n :: n in ReadNames(listing) ==> HasKey(r, n)
  {
    r, ignored := jobs, {};
    var k := 0;
    while k < |listing|
      invariant k <= |listing|
      invariant ignored == RegisteredBy(listing[..k])
      invariant ReadInto(jobs, r, ReadNames(listing[..k]), fetch, norm)
    {
      var j := listing[k];
      ListingStep(listing, k);
      if IsManaging(j) {
        ignored := ignored + UrlSet(j.subjobUrls);
      } else if j.url in ignored {
        ignored := ignored + UrlSet(j.subjobUrls);
        k := k + 1;
        continue;
      }
      ReadIntoStep(jobs, r, ReadNames(listing[..k]), j.fullname, fetch, norm);
      r := Assign(r, j.fullname, Before, fetch(j.fullname), norm);
      k := k + 1;
    }
    assert listing[..k] == listing;
  }

  /** The ignored-URL set only grows along the listing. */
  lemma {:induction false} RegisteredByGrows(listing: seq<JobInfo>, a: nat, b: nat)
    requires a <= b <= |listing|
    ensures RegisteredBy(listing[..a]) <= RegisteredBy(listing[..b])
    decreases b - a
  {
    if a < b {
      RegisteredByGrows(listing, a, b - 1);
      assert listing[..b][..b - 1] == listing[..b - 1];
    }
  }

  /** Every registered URL was listed as a sub-job by an earlier registering entry. */
  lemma {:induction false} RegisteredHasSource(listing: seq<JobInfo>, n: nat, u: string)
    requires n <= |listing|
    requires u in RegisteredBy(listing[..n])
    ensures exists i :: 0 <= i < n && Registers(listing, i) && u in listing[i].subjobUrls
  {
    var s := listing[..n];
    var k := n - 1;
    assert s[..k] == listing[..k];
    if u in RegisteredBy(listing[..k]) {
      RegisteredHasSource(listing, k, u);
    } else {
      assert s[k] == listing[k];
      assert Registers(listing, k);
    }
  }

  /**
   * A listed job is ignored exactly when it is not a managing folder and an
   * earlier managing folder or ignored job lists it among its sub-jobs.
   */
  lemma SkippedIffChildOfRegistering(listing: seq<JobInfo>, k: nat)
    requires k < |listing|
    ensures !IsRead(listing, k) <==>
              !IsManaging(listing[k]) &&
              exists i :: 0 <= i < k && Registers(listing, i) && listing[k].url in listing[i].subjobUrls
  {
    if !IsRead(listing, k) {
      RegisteredHasSource(listing, k, listing[k].url);
    }
    if !IsManaging(listing[k]) && exists i :: 0 <= i < k && Registers(listing, i) && listing[k].url in listing[i].subjobUrls {
      var i :| 0 <= i < k && Registers(listing, i) && listing[k].url in listing[i].subjobUrls;
      SourceRegisters(listing, i, k);
    }
  }

  /** A URL listed by a registering entry is in the ignored set of every later entry. */
  lemma SourceRegisters(listing: seq<JobInfo>, i: nat, k: nat)
    requires i < k < |listing|
    requires Registers(listing, i)
    ensures UrlSet(listing[i].subjobUrls) <= RegisteredBy(listing[..k])
  {
    ListingStep(listing, i);
    RegisteredByGrows(listing, i + 1, k);
  }

  /** Whether entry `k` is read depends only on the entries up to and including it. */
  lemma IsReadPrefix(listing: seq<JobInfo>, m: nat, k: nat)
    requires k < m <= |listing|
    ensures IsRead(listing[..m], k) == IsRead(listing, k)
  {
    assert listing[..m][..k] == listing[..k];
  }

  /** A name is read exactly when some entry of the listing carrying it is read. */
  lemma {:induction false} ReadNamesExact(listing: seq<JobInfo>, n: string)
    ensures n in ReadNames(listing) <==>
              exists k :: 0 <= k < |listing| && IsRead(listing, k) && listing[k].fullname == n
  {
    if |listing| > 0 {
      var m := |listing| - 1;
      var init := listing[..m];
      ReadNamesExact(init, n);
      if n in ReadNames(init) {
        var k :| 0 <= k < |init| && IsRead(init, k) && init[k].fullname == n;
        IsReadPrefix(listing, m, k);
      }
      if exists k :: 0 <= k < |listing| && IsRead(listing, k) && listing[k].fullname == n {
        var k :| 0 <= k < |listing| && IsRead(listing, k) && listing[k].fullname == n;
        if k < m {
          IsReadPrefix(listing, m, k);
          assert IsRead(init, k) && init[k].fullname == n;
        }
      }
    }
  }

  /** No two entries of the listing share a full name, as on a Jenkins server. */
  predicate UniqueNames(listing: seq<JobInfo>)
  {
    forall i, j :: 0 <= i < j < |listing| ==> listing[i].fullname != listing[j].fullname
  }

  /** With unique full names, a skipped entry's name is not among the read names. */
  lemma SkippedNameNotRead(listing: seq<JobInfo>, k: nat)
    requires UniqueNames(listing)
    requires k < |listing| && !IsRead(listing, k)
    ensures listing[k].fullname !in ReadNames(listing)
  {
    ReadNamesExact(listing, listing[k].fullname);
  }

  /**
   * A chain of listing positions starting at a managing folder, each later
   * entry listed as a sub-job of the one before it.
   */
  ghost predicate FolderChain(listing: seq<JobInfo>, c: seq<nat>)
  {
    && |c| > 0
    && (forall t :: 0 <= t < |c| ==> c[t] < |listing|)
    && IsManaging(listing[c[0]])
    && (forall t :: 0 < t < |c| ==> c[t - 1] < c[t] && listing[c[t]].url in listing[c[t - 1]].subjobUrls)
  }

  /**
   * Descendants of an organisation folder are ignored transitively: every
   * job below the head of a folder chain is skipped unless it is itself a
   * managing folder, and every member of the chain registers its sub-jobs.
   */
  lemma {:induction false} DescendantsOfFolderAreSkipped(listing: seq<JobInfo>, c: seq<nat>)
    requires FolderChain(listing, c)
    ensures forall t :: 0 <= t < |c| ==> Registers(listing, c[t])
    ensures forall t :: 0 < t < |c| && !IsManaging(listing[c[t]]) ==> !IsRead(listing, c[t])
  {
    if |c| > 1 {
      var p := c[..|c| - 1];
      assert FolderChain(listing, p);
      DescendantsOfFolderAreSkipped(listing, p);
      var last := |c| - 1;
      assert p[last - 1] == c[last - 1];
      assert Registers(listing, c[last - 1]);
      if !IsManaging(listing[c[last]]) {
        SkippedIffChildOfRegistering(listing, c[last]);
      }
      forall t | 0 <= t < |c|
        ensures Registers(listing, c[t])
      {
        if t < last {
          assert p[t] == c[t];
        }
      }
      forall t | 0 < t < |c| && !IsManaging(listing[c[t]])
        ensures !IsRead(listing, c[t])
      {
        if t < last {
          assert p[t] == c[t];
        }
      }
    }
  }
}

=== FILE: wrappers.dfy ===
/** Optional values and results carrying an error, used throughout the model. */
module Wrappers {

  /** Python's `Optional[T]`: `None` or a present value. */
  datatype Option<+T> = None | Some(value: T)

  /** A value, or the error a Python call would have raised instead. */
  datatype Result<+T, +E> = Success(value: T) | Failure(error: E) {

    predicate IsFailure()
    {
      Failure?
    }

    function PropagateFailure<U>(): Result<U, E>
      requires Failure?
    {
      Failure(error)
    }

    function Extract(): T
      requires Success?
    {
      value
    }
  }

  /** Python truthiness of an optional string: absent and empty are both false. */
  predicate Truthy(x: Option<string>)
  {
    x.Some? && x.value != ""
  }
}

=== FILE: xml_change.dfy ===
/**
 * One job or view name together with its normalised XML as read from the
 * server (the "before" side) and as generated locally (the "after" side),
 * and the classification of that pair into the change that reconciles them.
 */
module XmlChanges {
  import opened Wrappers

  /** The change kinds `create`, `update` and `delete`; "no change" is `None`. */
  datatype ChangeKind = Create | Update | Delete

  /**
   * XML normalisation (parse, strip blank text nodes, pretty-print). It is
   * left uninterpreted: every operation takes it as a parameter.
   */
  type Normalizer = string -> string

  datatype XmlChange = XmlChange(name: string, before: Option<string>, after: Option<string>)

  /** The `ValueError` raised when a change is constructed without a name. */
  datatype NameError = NameMustBeSet

  /** Which of the two sides a setter writes. */
  datatype Side = Before | After

  /** The entry created for a name that has been seen on neither side yet. */
  function Fresh(name: string): XmlChange
  {
    XmlChange(name, None, None)
  }

  /** The constructor: a missing name is rejected, otherwise both sides are absent. */
  function NewChange(name: Option<string>): (r: Result<XmlChange, NameError>)
    ensures r.Failure? <==> name.None?
    ensures r.Success? ==> r.value.name == name.value
    ensures r.Success? ==> r.value.before.None? && r.value.after.None?
    ensures r.Success? ==> ChangeType(r.value).None?
  {
    if name.None? then Failure(NameMustBeSet) else Success(Fresh(name.value))
  }

  /**
   * The change needed to turn the before side into the after side. Equal
   * sides (both absent included) need none; otherwise a falsy before with a
   * truthy after is a creation, a truthy before with a falsy after is a
   * deletion, and every other differing pair is an update.
   */
  function ChangeType(c: XmlChange): (r: Option<ChangeKind>)
    ensures c.before == c.after ==> r.None?
    ensures c.before != c.after ==> r.Some?
    ensures r == Some(Create) <==> c.before != c.after && !Truthy(c.before) && Truthy(c.after)
    ensures r == Some(Delete) <==> c.before != c.after && Truthy(c.before) && !Truthy(c.after)
    ensures r == Some(Update) <==> c.before != c.after && (Truthy(c.before) <==> Truthy(c.after))
  {
    if c.before == c.after then None
    else if !Truthy(c.before) && Truthy(c.after) then Some(Create)
    else if Truthy(c.before) && !Truthy(c.after) then Some(Delete)
    else Some(Update)
  }

  /** The `before_xml` setter: stores the normalised text, leaves the rest alone. */
  function SetBefore(c: XmlChange, xml: string, norm: Normalizer): (r: XmlChange)
    ensures r.name == c.name && r.after == c.after
    ensures r.before == Some(norm(xml))
  {
    c.(before := Some(norm(xml)))
  }

  /** The `after_xml` setter: stores the normalised text, leaves the rest alone. */
  function SetAfter(c: XmlChange, xml: string, norm: Normalizer): (r: XmlChange)
    ensures r.name == c.name && r.before == c.before
    ensures r.after == Some(norm(xml))
  {
    c.(after := Some(norm(xml)))
  }

  /** Dispatches to the setter of the given side. */
  function SetSide(c: XmlChange, side: Side, xml: string, norm: Normalizer): XmlChange
  {
    match side
    case Before => SetBefore(c, xml, norm)
    case After => SetAfter(c, xml, norm)
  }

  /**
   * Two texts that normalise to the same XML give no change when one is set
   * as the before side and the other as the after side: this is what makes
   * `<project></project>` against `<project/>` a no-op.
   */
  lemma NormalizedEqualIsNoChange(name: string, before: string, after: string, norm: Normalizer)
    requires norm(before) == norm(after)
    ensures ChangeType(SetAfter(SetBefore(Fresh(name), before, norm), after, norm)).None?
  {
  }

  /** Only an after side, normalising to non-empty text, is a creation. */
  lemma OnlyAfterIsCreate(name: string, after: string, norm: Normalizer)
    requires norm(after) != ""
    ensures ChangeType(SetAfter(Fresh(name), after, norm)) == Some(Create)
  {
  }

  /** Only a before side, normalising to non-empty text, is a deletion. */
  lemma OnlyBeforeIsDelete(name: string, before: string, norm: Normalizer)
    requires norm(before) != ""
    ensures ChangeType(SetBefore(Fresh(name), before, norm)) == Some(Delete)
  {
  }

  /** Both sides present, non-empty and normalising differently is an update. */
  lemma DifferentBothIsUpdate(name: string, before: string, after: string, norm: Normalizer)
    requires norm(before) != "" && norm(after) != ""
    requires norm(before) != norm(after)
    ensures ChangeType(SetAfter(SetBefore(Fresh(name), before, norm), after, norm)) == Some(Update)
  {
  }

  /**
   * Classification read backwards: exchanging the two sides turns a
   * creation into a deletion and back, and keeps updates and no-ops.
   */
  lemma SwapSidesInvertsChange(c: XmlChange)
    ensures var swapped := XmlChange(c.name, c.after, c.before);
            && (ChangeType(c) == Some(Create) <==> ChangeType(swapped) == Some(Delete))
            && (ChangeType(c) == Some(Delete) <==> ChangeType(swapped) == Some(Create))
            && (ChangeType(c) == Some(Update) <==> ChangeType(swapped) == Some(Update))
            && (ChangeType(c).None? <==> ChangeType(swapped).None?)
  {
  }
}
